=== FILE: README.md ===
# E-commerce services: product, user and resolver core in Dafny

This project models the service layer of the e-commerce GraphQL microservices:

- the **product service**: create with validation, partial update, delete by identifier or name, restock, the availability setter, counting, and keyset ("id > cursor") pagination;
- the **cursor helper**, which is standard base64 (section 4 of RFC 4648, with `=` padding) applied to a product identifier;
- the **user service**: lookup, listing, create, partial update and delete;
- the **in-memory resolvers** of the orders and products services. These are linear lookups and a filter over a fixed list.

Every service call runs atomically on an abstract table, a `map` from primary key to row. Each mutation returns a `Step`, which holds the Go `(value, error)` answer as a `Result` together with the table it leaves behind. The ghost predicate `WellKeyed` says that every row is stored under its own identifier, and every operation preserves it.

Go values are modelled as follows:

- A Go `string` is a byte sequence (`GoTypes.Str`).
- Go `int` is a 64-bit integer (`GoTypes.Int64`). `RestockProduct`'s `+=` wraps around with two's-complement arithmetic (`GoTypes.Wrap64`).
- The `float64` price is a `real`, because the code only compares it with zero. A real has no NaN; see "## Left out".
- `strings.TrimSpace(name) == ""` is `GoStrings.IsBlank`: every UTF-8 rune of the name is one of the code points `unicode.IsSpace` accepts.
- `ORDER BY id ASC` and `id > ?` use byte-wise lexicographic order (`StringOrder.Less`). This is how Go compares strings, and how PostgreSQL compares them under the "C" collation.
- The base64 decoder follows Go's `StdEncoding`. It skips `\r` and `\n` anywhere in the input. It demands full padding, and allows padding only in the last quantum. It ignores the unused low bits of the last character, so `QQ==` and `QR==` both decode to `A` (`Base64.DecodeIsNotStrict`).

Module layout: `GoTypes`, `Outcomes`, `GoStrings`, `StringOrder`, `Table` (primary-key scan in key order), `Base64`, `Cursor`, `ProductModel`, `ProductService`, `ProductLaws` (properties that relate several product calls), `ProductPaging`, `UserModel`, `UserService`, `ListLookup`, `OrderResolver` and `ProductResolver`.

Behaviours of the code worth noting:

- `CreateProduct` always stores a present description, `Some(description)`, even an empty one.
- `SetProductAvailability` answers a no-op request with the product *and* an error. The error value `AvailabilityAlreadySet` therefore carries the product.
- No role default exists in the code: `CreateUser` stores the role it is given.
- `DeleteProduct` given both an identifier and a name deletes by identifier alone.
- `UpdateProduct` checks nothing: it can write a blank name, a non-positive price or a negative inventory. It never touches `Available`, so an update can leave an available product with no stock (`ProductLaws.UpdateMayBreakStockConsistency`).
- A product with an empty identifier encodes to the empty cursor. The listing treats the empty cursor as "no cursor", so that cursor restarts the listing instead of resuming after the product (`ProductPaging.CursorResumesAfter`).

## Model

| member | source | states |
|---|---|---|
| `Base64.Encode` | services/products/services/cursor_utils.go:14 | An encoding of n bytes has length 4·⌈n/3⌉ and uses only the standard alphabet and `=` |
| `Base64.DecodeEncode` | services/products/services/cursor_utils.go:12-23 | Decoding an encoding returns the original bytes, with no error |
| `Base64.EncodeInjective` | services/products/services/cursor_utils.go:14 | Two byte strings have the same encoding exactly when they are equal |
| `Base64.DecodeRejectsForeign` | services/products/services/cursor_utils.go:19-22 | Input holding a byte that is not in the alphabet, not `=` and not a newline fails to decode |
| `Base64.DecodeQuantaRejectsLength` | services/products/services/cursor_utils.go:19-22 | Newline-free input whose length is not a multiple of four fails to decode, because padding is required |
| `Base64.DecodeIsNotStrict` | services/products/services/cursor_utils.go:19 | The decoder ignores unused trailing bits: `QQ==` and `QR==` both decode to `A` |
| `Cursor.EncodeCursor` | services/products/services/cursor_utils.go:12-15 | A cursor has length 4·⌈n/3⌉ for an n-byte identifier and uses only alphabet characters and `=` |
| `Cursor.DecodeCursor` | services/products/services/cursor_utils.go:18-23 | Succeeds exactly when the cursor is valid padded standard base64 (line breaks skipped), and then yields the decoded bytes; otherwise the corrupt-input error |
| `Cursor.CursorRoundTrip` | services/products/services/cursor_utils.go:12-23 | Decoding any product's cursor succeeds and yields exactly that product's identifier |
| `Cursor.CursorIdentifiesProduct` | services/products/services/cursor_utils.go:13 | Two products share a cursor exactly when they share an identifier; no other field affects it |
| `Cursor.ForeignByteRejected` | services/products/services/cursor_utils.go:18-22 | A cursor with a byte outside the alphabet (other than `=`, `\r`, `\n`) yields an error |
| `ProductService.GetAllProducts` | services/products/services/product_service.go:23-29 | Returns every stored product exactly once, and only stored products |
| `ProductService.GetProductByID` | services/products/services/product_service.go:31-37 | Returns the stored product with that identifier; "record not found" exactly when there is none |
| `ProductService.CountProducts` | services/products/services/product_service.go:201-205 | The number of stored products, with no filter; `ProductLaws` relates it to create, delete and restock |
| `ProductService.CreateProduct` | services/products/services/product_service.go:39-64 | Fails on a blank trimmed name, else on price ≤ 0, else on negative inventory, with the table unchanged. On success it echoes the inputs, sets available iff inventory > 0, and adds exactly that one row |
| `ProductService.UpdateProduct` | services/products/services/product_service.go:66-95 | An unknown identifier errors with the table unchanged. Otherwise exactly the present fields are written; absent fields, the identifier, availability and every other row keep their values |
| `ProductService.DeleteProduct` | services/products/services/product_service.go:97-117 | Fails when neither identifier nor name is given. Deletes by identifier when one is given, else every row with the name. Zero matching rows is "product not found" with the table unchanged |
| `ProductService.RestockProduct` | services/products/services/product_service.go:119-139 | An unknown identifier errors before the quantity is checked; quantity ≤ 0 errors. Otherwise only the inventory changes: it grows by the quantity, wrapping past the 64-bit maximum |
| `ProductService.SetProductAvailability` | services/products/services/product_service.go:141-167 | Unknown identifier errors. Requesting the current value errors, returns the product and writes nothing. Requesting true at inventory ≤ 0 errors. Otherwise only `Available` changes |
| `ProductLaws.CreateThenGet` | services/products/services/product_service.go:51-63 | A created product reads back under its identifier and the product count grows by one |
| `ProductLaws.RejectedCreateKeepsCount` | services/products/services/product_service.go:41-49 | A rejected create leaves the product count unchanged |
| `ProductLaws.CreateExamples` | services/products/services/product_service.go:41-63 | An empty name fails with the invalid-name error and nothing is stored; "Widget" at 29.99 with stock 50 is created available |
| `ProductLaws.CreateKeepsStockConsistent` | services/products/services/product_service.go:57 | Creation keeps "available implies inventory > 0" |
| `ProductLaws.UpdateIsIdempotent` | services/products/services/product_service.go:66-95 | Repeating an update changes nothing more and answers the same product |
| `ProductLaws.EmptyUpdateChangesNothing` | services/products/services/product_service.go:69-94 | An update with no field present writes nothing and answers the stored product |
| `ProductLaws.UpdateMayBreakStockConsistency` | services/products/services/product_service.go:81-83 | Setting inventory to 0 on an available product leaves it available without stock |
| `ProductLaws.DeleteByIdRemovesOneRow` | services/products/services/product_service.go:104-116 | Deleting a stored identifier (name given or not) succeeds and removes exactly that row, so the count drops by one |
| `ProductLaws.DeleteTwice` | services/products/services/product_service.go:113-116 | A second delete of the same identifier reports "product not found" and changes neither the table nor the count |
| `ProductLaws.DeleteByNameRemovesAll` | services/products/services/product_service.go:106-107 | After a delete by name no product of that name remains, and every other product is kept |
| `ProductLaws.DeleteKeepsStockConsistent` | services/products/services/product_service.go:97-117 | Deletion keeps "available implies inventory > 0" |
| `ProductLaws.RestockKeepsStockConsistent` | services/products/services/product_service.go:128-138 | A restock that does not overflow keeps "available implies inventory > 0" |
| `ProductLaws.RestockOverflowWraps` | services/products/services/product_service.go:132 | Restocking an inventory of 2^63−1 by one stores −2^63 and leaves an available product without stock |
| `ProductLaws.RestockKeepsCount` | services/products/services/product_service.go:119-139 | Restocking never changes the product count |
| `ProductLaws.SetAvailabilityKeepsStockConsistent` | services/products/services/product_service.go:156-158 | The availability setter never breaks "available implies inventory > 0" |
| `ProductLaws.SetAvailabilityTwice` | services/products/services/product_service.go:150-152 | Repeating a successful availability change is refused as a no-op that writes nothing and returns the current product |
| `ProductLaws.WithdrawThenOffer` | services/products/services/product_service.go:141-167 | Marking a stocked available product unavailable and then available again restores the table exactly |
| `ProductPaging.AfterBound` | services/products/services/product_service.go:178-186 | A nil or empty cursor sets no bound. Otherwise the bound is the decoded identifier, and an undecodable cursor is the "invalid cursor" error |
| `ProductPaging.GetAllProductsCursor` | services/products/services/product_service.go:170-200 | Fails exactly on an undecodable cursor. Otherwise returns min(first, n) stored products, where n products have an identifier above the bound. They are in strictly ascending identifier order with none of the n skipped before the last, and hasNextPage holds iff n > first |
| `ProductPaging.SortedPrefixIsPage` | services/products/services/product_service.go:189-199 | Keeping the first `first` of the `first + 1` fetched rows, with hasNextPage = "more than `first` fetched", yields that page |
| `ProductPaging.PageIsUnique` | services/products/services/product_service.go:170-200 | The page property fixes the answer: two pages for the same table, bound and size are equal |
| `ProductPaging.OnePageHoldsAll` | services/products/services/product_service.go:170-200 | Without a cursor, a page at least as large as the table holds every stored product, one per row, and reports no next page, which matches the unpaged listing |
| `ProductPaging.NextPageContinues` | services/products/services/product_service.go:184-199 | Reading on from the last product of a full page continues it: the two pages together are the page of the combined size |
| `ProductPaging.CursorResumesAfter` | services/products/services/product_service.go:178-186 | A product's cursor sets the bound to its identifier when that is non-empty; an empty identifier gives no bound |
| `Table.SortKeys` | services/products/services/product_service.go:173-175 | Lists a key set in strictly ascending order, each key exactly once |
| `StringOrder.LessTotal` | services/products/services/product_service.go:175 | The identifier order is total on distinct identifiers |
| `StringOrder.LessTransitive` | services/products/services/product_service.go:175 | The identifier order is transitive |
| `GoStrings.PrintableAsciiIsNotBlank` | services/products/services/product_service.go:41 | A name holding a printable ASCII character is not blank after trimming |
| `GoTypes.Wrap64` | services/products/services/product_service.go:132 | Go's 64-bit addition keeps in-range sums, subtracts 2^64 from sums above the maximum and adds 2^64 to sums below the minimum |
| `UserService.GetUserByID` | services/users/services/users_service.go:21-27 | Returns the stored user with that identifier; an error exactly when there is none |
| `UserService.GetAllUsers` | services/users/services/users_service.go:29-35 | Returns every stored user exactly once; empty for an empty table |
| `UserService.CreateUser` | services/users/services/users_service.go:38-56 | Always succeeds. Copies name, email, password and role as given and stores `Active = true` whatever `active` says |
| `UserService.UpdateUser` | services/users/services/users_service.go:58-90 | An unknown identifier errors with the table unchanged. Exactly the present Name/Email/Role/Active fields change; identifier and password never do. No present field means no write and the stored record is returned |
| `UserService.DeleteUser` | services/users/services/users_service.go:92-99 | Removes the user with that identifier, if any, keeps every other user, and reports true in every case |
| `UserService.CreateStoresAnyRole` | services/users/services/users_service.go:38-56 | A role outside the two named ones, such as the repository's test value "user", is stored verbatim, and a user requested inactive is created active |
| `UserService.CreateThenGet` | services/users/services/users_service.go:38-56 | A created user reads back under its identifier and the table grows by one |
| `UserService.UpdateIsIdempotent` | services/users/services/users_service.go:58-90 | Repeating an update changes nothing more and answers the same user |
| `UserService.UpdateTouchesOneUser` | services/users/services/users_service.go:82-87 | An update keeps the set of users and every other user unchanged |
| `UserService.DeleteTwice` | services/users/services/users_service.go:92-99 | Deleting twice succeeds both times, the second call changes nothing, and the user is then not found |
| `UserService.DeleteUnknownReportsSuccess` | services/users/services/users_service.go:94-98 | Deleting an unknown identifier reports success and leaves the table unchanged |
| `ListLookup.FindFirst` | services/orders/resolvers/resolver.go:35-40 | Returns the first element with the key, and none exactly when no element has it |
| `OrderResolver.NewResolver` | services/orders/resolvers/resolver.go:16-26 | The seed list holds three orders with distinct identifiers, each with a positive quantity and total |
| `OrderResolver.Orders` | services/orders/resolvers/resolver.go:29-31 | Returns the stored order list unchanged |
| `OrderResolver.GetOrder` | services/orders/resolvers/resolver.go:34-41 | Returns the first listed order with the identifier, else "order not found" exactly when none has it |
| `OrderResolver.OrdersByUser` | services/orders/resolvers/resolver.go:44-52 | Returns exactly the user's orders, in list order; an empty list, never an error, when there are none |
| `OrderResolver.OwnedByMembers` | services/orders/resolvers/resolver.go:44-52 | An order is selected for a user exactly when it is listed and belongs to that user |
| `OrderResolver.OwnedByIsolates` | services/orders/resolvers/resolver.go:44-52 | The selections for two different users share no order |
| `OrderResolver.SeedOrdersOfUserOne` | services/orders/resolvers/resolver.go:17-21 | With the seed data, user "1" gets orders "1" and "3", in that order |
| `ProductResolver.NewResolver` | services/products/resolvers/resolver.go:15-25 | The seed list holds three products with distinct identifiers, each stocked, with a description, and not marked available |
| `ProductResolver.Products` | services/products/resolvers/resolver.go:28-30 | Returns the stored product list unchanged |
| `ProductResolver.GetProduct` | services/products/resolvers/resolver.go:33-40 | Returns the first listed product with the identifier, else "product not found" exactly when none has it |
| `ProductResolver.StringPtr` | services/products/resolvers/resolver.go:48-50 | Yields a present optional holding exactly its argument |

## Left out

- Store failures (`result.Error`, a failed `Create` or `Save`, a failed `Count`) are not modelled. Every store call succeeds, because the store is an abstract table.
- The `context.Context` arguments and the GORM/PostgreSQL plumbing are not modelled; they carry no logic of the core.
- Identifier generation (`uuid.NewString()` for products, `"user_%d"` of `time.Now().UnixNano()` for users) is nondeterministic. The fresh identifier is a parameter. The preconditions `id != []` and `id !in t` say it is non-empty, as both generators guarantee, and unused.
- The interleaving of the read-then-write sequences of restock, the availability setter and the field-by-field product update is not modelled. Concurrency is out of scope, so each call is one atomic step.
- `float64` rounding of prices and order totals is not modelled. Prices are reals, because the code only compares them with zero.
- ProductService.CreateProduct: a NaN price passes Go's `price <= 0` check (product_service.go:44), because every comparison with NaN is false, and is stored with success. The model's price is a `real` and has no NaN, so its promise that every created product has a positive price does not hold in Go for NaN.
- ProductService.RestockProduct: a stored row with an empty identifier is answered with success in the model. Go's `Save` (product_service.go:135) treats the empty primary key as unset and inserts a duplicate row, which the store rejects. Creation never produces such a row, since its identifier is non-empty.
- ProductService.SetProductAvailability: the same gap as for restock holds for the `Save` at product_service.go:163 when the stored identifier is empty.
- UserService.UpdateUser: a stored user with an empty identifier is answered with success in the model. Go's `Model(&user).Updates(updates)` (users_service.go:84) then has no primary key to build a `WHERE` clause from, and GORM refuses the update.
- ProductPaging.GetAllProductsCursor: takes `first` as a natural number. With a negative `first`, `len(products) > first` (product_service.go:194) holds even for zero rows, so `products[:first]` panics whenever the query succeeds. The overflow of `first + 1` at the 64-bit maximum would need 2^63 rows to matter.
- ProductPaging.GetAllProductsCursor: a cursor that decodes to bytes PostgreSQL `text` cannot hold (invalid UTF-8 or a NUL byte; `/w==` decodes to the single byte 0xFF) is rejected by the store when bound to `id > ?`, so Go returns that store error. The model treats it as an ordinary bound and answers a page. The model's `Str` is any byte sequence and carries no encoding check.
- ProductService.CreateProduct: a name or description that is not valid UTF-8 or holds a NUL byte is rejected by the store in Go; the model stores it. The same holds for ProductService.UpdateProduct, UserService.CreateUser and UserService.UpdateUser.
- The database collation is assumed to be byte-wise ("C"). Under a locale collation, PostgreSQL's `ORDER BY id` and `id > ?` use a different order than `StringOrder.Less`.
- UserService.UpdateUser: the returned record is the stored record with the updates applied. This relies on GORM writing the updated columns back into the `user` value passed to `Model`.
- Cursor.DecodeCursor: returns the base64 error alone, without the empty string that Go pairs with it. Its only caller never reads that string.
- The order service (`CreateOrder`, `UpdateOrder`, `DeleteOrder`, `GetOrdersByUserID`) and its order-to-product relation are not modelled; the in-memory order resolver is.
- The mappers, the database migration and retry loop, the HTTP server, the gateway, the UI, and the user resolver constructor are not part of this model.

=== FILE: base64.dfy ===
/** Go's `base64.StdEncoding`: the standard alphabet of section 4 of RFC 4648 with `=` padding.
    The decoder skips carriage returns and line feeds wherever they occur, demands full padding,
    accepts padding only in the last quantum, and (not being strict) ignores the unused low bits
    of the last encoded character. */
module Base64 {
  import opened GoTypes
  import opened Outcomes

  const PadChar: byte := 61   // '='

  /** The character for a 6-bit value. */
  function Char(v: nat): (c: byte)
    requires v < 64
  {
    if v < 26 then (65 + v) as byte          // 'A'..'Z'
    else if v < 52 then (97 + v - 26) as byte  // 'a'..'z'
    else if v < 62 then (48 + v - 52) as byte  // '0'..'9'
    else if v == 62 then 43                    // '+'
    else 47                                    // '/'
  }

  /** The 6-bit value of an alphabet character; `None` for every other byte. */
  function Value(c: byte): (r: Option<nat>)
    ensures r.Some? ==> r.value < 64 && Char(r.value) == c
  {
    if 65 <= c <= 90 then Some(c as int - 65)
    else if 97 <= c <= 122 then Some(c as int - 97 + 26)
    else if 48 <= c <= 57 then Some(c as int - 48 + 52)
    else if c == 43 then Some(62)
    else if c == 47 then Some(63)
    else None
  }

  predicate InAlphabet(c: byte) {
    Value(c).Some?
  }

  lemma ValueOfChar(v: nat)
    requires v < 64
    ensures Value(Char(v)) == Some(v)
  {
  }

  lemma CharInAlphabet(v: nat)
    requires v < 64
    ensures InAlphabet(Char(v)) && Char(v) != PadChar
  {
    ValueOfChar(v);
  }

  /** One to three bytes as one quantum of four characters, padded with `=`. */
  function EncodeQuantum(s: Str): (r: Str)
    requires 1 <= |s| <= 3
    ensures |r| == 4
    ensures forall i :: 0 <= i < 4 ==> InAlphabet(r[i]) || r[i] == PadChar
  {
    var b0 := s[0] as int;
    var b1 := if |s| > 1 then s[1] as int else 0;
    var b2 := if |s| > 2 then s[2] as int else 0;
    CharInAlphabet(b0 / 4);
    CharInAlphabet(b0 % 4 * 16 + b1 / 16);
    CharInAlphabet(b1 % 16 * 4 + b2 / 64);
    CharInAlphabet(b2 % 64);
    [ Char(b0 / 4),
      Char(b0 % 4 * 16 + b1 / 16),
      if |s| > 1 then Char(b1 % 16 * 4 + b2 / 64) else PadChar,
      if |s| > 2 then Char(b2 % 64) else PadChar ]
  }

  /** `StdEncoding.EncodeToString`. */
  function Encode(s: Str): (r: Str)
    ensures |r| == 4 * ((|s| + 2) / 3)
    ensures forall i :: 0 <= i < |r| ==> InAlphabet(r[i]) || r[i] == PadChar
    decreases |s|
  {
    if |s| == 0 then []
    else if |s| <= 3 then EncodeQuantum(s)
    else EncodeQuantum(s[..3]) + Encode(s[3..])
  }

  predicate IsNewline(c: byte) {
    c == 10 || c == 13
  }

  /** The input as the decoder sees it: with every '\r' and '\n' dropped. */
  function StripNewlines(s: Str): (r: Str)
    ensures |r| <= |s|
    ensures forall i :: 0 <= i < |r| ==> !IsNewline(r[i])
    decreases |s|
  {
    if |s| == 0 then []
    else (if IsNewline(s[0]) then [] else [s[0]]) + StripNewlines(s[1..])
  }

  /** One quantum of four characters as one to three bytes. Padding is allowed only when
      `last` (nothing follows the quantum): `xx==` gives one byte, `xxx=` gives two. */
  function DecodeQuantum(q: Str, last: bool): (r: Option<Str>)
    requires |q| == 4
    ensures r.Some? ==> 1 <= |r.value| <= 3
    ensures r.Some? && |r.value| < 3 ==> last
  {
    var v0, v1, v2, v3 := Value(q[0]), Value(q[1]), Value(q[2]), Value(q[3]);
    if v0.None? || v1.None? then None
    else
      var b0 := (v0.value * 4 + v1.value / 16) as byte;
      var b1 := if v2.Some? then (v1.value % 16 * 16 + v2.value / 4) as byte else 0;
      if v2.Some? && v3.Some? then Some([b0, b1, (v2.value % 4 * 64 + v3.value) as byte])
      else if last && v2.Some? && q[3] == PadChar then Some([b0, b1])
      else if last && q[2] == PadChar && q[3] == PadChar then Some([b0])
      else None
  }

  /** Decoding of input that holds no newline. */
  function DecodeQuanta(s: Str): (r: Option<Str>)
    decreases |s|
  {
    if |s| == 0 then Some([])
    else if |s| < 4 then None
    else match DecodeQuantum(s[..4], |s| == 4)
      case None => None
      case Some(head) =>
        match DecodeQuanta(s[4..])
        case None => None
        case Some(tail) => Some(head + tail)
  }

  /** `StdEncoding.DecodeString`, with `None` for a `CorruptInputError`. */
  function Decode(s: Str): (r: Option<Str>) {
    DecodeQuanta(StripNewlines(s))
  }

  // ---------------------------------------------------------------------------------------
  // Round trip

  lemma Pack16(hi: int, lo: int)
    requires 0 <= lo < 16
    ensures (hi * 16 + lo) / 16 == hi && (hi * 16 + lo) % 16 == lo
  {
  }

  lemma Pack4(hi: int, lo: int)
    requires 0 <= lo < 4
    ensures (hi * 4 + lo) / 4 == hi && (hi * 4 + lo) % 4 == lo
  {
  }

  /** The bytes recovered from the 6-bit groups of `b0 b1 b2` are `b0 b1 b2`. */
  lemma RegroupBytes(b0: int, b1: int, b2: int)
    requires 0 <= b0 < 256 && 0 <= b1 < 256 && 0 <= b2 < 256
    ensures var v0, v1, v2, v3 := b0 / 4, b0 % 4 * 16 + b1 / 16, b1 % 16 * 4 + b2 / 64, b2 % 64;
            && v0 * 4 + v1 / 16 == b0
            && v1 % 16 * 16 + v2 / 4 == b1
            && v2 % 4 * 64 + v3 == b2
  {
    Pack16(b0 % 4, b1 / 16);
    Pack4(b1 % 16, b2 / 64);
  }

  lemma QuantumRoundTrip(s: Str, last: bool)
    requires 1 <= |s| <= 3
    requires |s| < 3 ==> last
    ensures DecodeQuantum(EncodeQuantum(s), last) == Some(s)
  {
    if |s| == 1 {
      OneByteRoundTrip(s);
    } else if |s| == 2 {
      TwoByteRoundTrip(s);
    } else {
      ThreeByteRoundTrip(s, last);
    }
  }

  /** A final quantum of one byte: two characters and two pads. */
  lemma OneByteRoundTrip(s: Str)
    requires |s| == 1
    ensures DecodeQuantum(EncodeQuantum(s), true) == Some(s)
  {
    var b0 := s[0] as int;
    var v0, v1 := b0 / 4, b0 % 4 * 16;
    RegroupBytes(b0, 0, 0);
    var q := EncodeQuantum(s);
    ValueOfChar(v0);
    ValueOfChar(v1);
    assert Value(q[0]) == Some(v0) && Value(q[1]) == Some(v1);
    assert q[2] == PadChar && q[3] == PadChar;
    assert s == [b0 as byte];
  }

  /** A final quantum of two bytes: three characters and one pad. */
  lemma TwoByteRoundTrip(s: Str)
    requires |s| == 2
    ensures DecodeQuantum(EncodeQuantum(s), true) == Some(s)
  {
    var b0, b1 := s[0] as int, s[1] as int;
    var v0, v1, v2 := b0 / 4, b0 % 4 * 16 + b1 / 16, b1 % 16 * 4;
    RegroupBytes(b0, b1, 0);
    var q := EncodeQuantum(s);
    ValueOfChar(v0);
    ValueOfChar(v1);
    ValueOfChar(v2);
    assert Value(q[0]) == Some(v0) && Value(q[1]) == Some(v1);
    assert Value(q[2]) == Some(v2) && q[3] == PadChar;
    assert s == [b0 as byte, b1 as byte];
  }

  /** A full quantum: four characters, decoded the same whether or not it is the last. */
  lemma ThreeByteRoundTrip(s: Str, last: bool)
    requires |s| == 3
    ensures DecodeQuantum(EncodeQuantum(s), last) == Some(s)
  {
    var b0, b1, b2 := s[0] as int, s[1] as int, s[2] as int;
    var v0, v1, v2, v3 := b0 / 4, b0 % 4 * 16 + b1 / 16, b1 % 16 * 4 + b2 / 64, b2 % 64;
    RegroupBytes(b0, b1, b2);
    var q := EncodeQuantum(s);
    ValueOfChar(v0);
    ValueOfChar(v1);
    ValueOfChar(v2);
    ValueOfChar(v3);
    assert Value(q[0]) == Some(v0) && Value(q[1]) == Some(v1);
    assert Value(q[2]) == Some(v2) && Value(q[3]) == Some(v3);
    assert s == [b0 as byte, b1 as byte, b2 as byte];
  }

  lemma {:induction false} StripNoNewlines(s: Str)
    requires forall i :: 0 <= i < |s| ==> !IsNewline(s[i])
    ensures StripNewlines(s) == s
    decreases |s|
  {
    if |s| > 0 {
      StripNoNewlines(s[1..]);
      assert s == [s[0]] + s[1..];
    }
  }

  lemma {:induction false} DecodeQuantaEncode(s: Str)
    ensures DecodeQuanta(Encode(s)) == Some(s)
    decreases |s|
  {
    if |s| == 0 {
    } else if |s| <= 3 {
      QuantumRoundTrip(s, true);
      assert Encode(s)[..4] == EncodeQuantum(s);
      assert Encode(s)[4..] == [];
      assert s + [] == s;
    } else {
      var e := Encode(s);
      assert e[..4] == EncodeQuantum(s[..3]);
      assert e[4..] == Encode(s[3..]);
      QuantumRoundTrip(s[..3], false);
      DecodeQuantaEncode(s[3..]);
      assert s == s[..3] + s[3..];
    }
  }

  /** Decoding undoes encoding: `DecodeString(EncodeToString(b))` returns `b` without error. */
  lemma DecodeEncode(s: Str)
    ensures Decode(Encode(s)) == Some(s)
  {
    var e := Encode(s);
    assert forall i :: 0 <= i < |e| ==> !IsNewline(e[i]);
    StripNoNewlines(e);
    DecodeQuantaEncode(s);
  }

  /** Encoding is injective. */
  lemma EncodeInjective(a: Str, b: Str)
    ensures Encode(a) == Encode(b) <==> a == b
  {
    if Encode(a) == Encode(b) {
      DecodeEncode(a);
      DecodeEncode(b);
    }
  }

  // ---------------------------------------------------------------------------------------
  // Rejection

  /** A byte that is not a newline survives newline stripping. */
  lemma {:induction false} StripKeeps(s: Str, i: nat) returns (j: nat)
    requires i < |s| && !IsNewline(s[i])
    ensures j < |StripNewlines(s)| && StripNewlines(s)[j] == s[i]
    decreases |s|
  {
    if i == 0 {
      j := 0;
    } else {
      var k := StripKeeps(s[1..], i - 1);
      j := if IsNewline(s[0]) then k else k + 1;
    }
  }

  /** Newline-free input holding a byte outside the alphabet and other than `=` is rejected. */
  lemma {:induction false} DecodeQuantaRejectsForeign(s: Str, i: nat)
    requires i < |s| && !InAlphabet(s[i]) && s[i] != PadChar
    ensures DecodeQuanta(s) == None
    decreases |s|
  {
    if |s| >= 4 {
      if i < 4 {
        assert s[..4][i] == s[i];
      } else {
        DecodeQuantaRejectsForeign(s[4..], i - 4);
      }
    }
  }

  /** `DecodeString` fails on any input holding a byte that is not in the alphabet, not `=`
      and not a newline. */
  lemma DecodeRejectsForeign(s: Str, i: nat)
    requires i < |s| && !InAlphabet(s[i]) && s[i] != PadChar && !IsNewline(s[i])
    ensures Decode(s) == None
  {
    var j := StripKeeps(s, i);
    DecodeQuantaRejectsForeign(StripNewlines(s), j);
  }

  /** Input whose length without newlines is not a multiple of four is rejected. */
  lemma {:induction false} DecodeQuantaRejectsLength(s: Str)
    requires |s| % 4 != 0
    ensures DecodeQuanta(s) == None
    decreases |s|
  {
    if |s| >= 4 {
      DecodeQuantaRejectsLength(s[4..]);
    }
  }

  /** The decoder is not strict: `QQ==` and `QR==` both decode to `A`, so distinct cursors
      can name the same identifier. */
  lemma DecodeIsNotStrict()
    ensures Decode(Lit("QQ==")) == Decode(Lit("QR==")) == Some(Lit("A"))
  {
    assert Lit("QQ==") == [81, 81, 61, 61];
    assert Lit("QR==") == [81, 82, 61, 61];
    assert Lit("A") == [65];
    SinglePaddedQuantum([81, 81, 61, 61]);
    SinglePaddedQuantum([81, 82, 61, 61]);
  }

  /** `QQ==` and `QR==`, as bytes, each decode to the single byte `A`. */
  lemma SinglePaddedQuantum(q: Str)
    requires q == [81, 81, 61, 61] || q == [81, 82, 61, 61]
    ensures Decode(q) == Some([65])
  {
    StripNoNewlines(q);
    assert q[..4] == q && q[4..] == [];
    assert DecodeQuantum(q, true) == Some([65]);
    assert DecodeQuanta([]) == Some([]);
    assert [65 as byte] + [] == [65];
  }
}

=== FILE: cursor.dfy ===
/** The opaque pagination cursor: the standard base64 encoding of a product identifier. */
module Cursor {
  import opened GoTypes
  import opened Outcomes
  import Base64
  import opened ProductModel

  /** The base64 decoder's `CorruptInputError`. */
  datatype CorruptInput = CorruptInput

  /** `EncodeCursor`: the cursor that points just past `p`. */
  function EncodeCursor(p: Product): (c: Str)
    ensures |c| == 4 * ((|p.id| + 2) / 3)
    ensures forall i :: 0 <= i < |c| ==> Base64.InAlphabet(c[i]) || c[i] == Base64.PadChar
  {
    Base64.Encode(p.id)
  }

  /** `DecodeCursor`: the identifier a cursor points past. Go pairs the error with an empty
      string, which its only caller never reads. */
  function DecodeCursor(cursor: Str): (r: Result<Str, CorruptInput>)
    ensures r.Ok? <==> Base64.Decode(cursor).Some?
    ensures r.Ok? ==> Base64.Decode(cursor) == Some(r.value)
  {
    match Base64.Decode(cursor)
    case None => Err(CorruptInput)
    case Some(bytes) => Ok(bytes)
  }

  /** Every product's cursor decodes, without error, to exactly that product's identifier. */
  lemma CursorRoundTrip(p: Product)
    ensures DecodeCursor(EncodeCursor(p)) == Ok(p.id)
  {
    Base64.DecodeEncode(p.id);
  }

  /** A cursor depends on the identifier and on nothing else: two products share a cursor
      exactly when they share an identifier. */
  lemma CursorIdentifiesProduct(p: Product, q: Product)
    ensures EncodeCursor(p) == EncodeCursor(q) <==> p.id == q.id
  {
    Base64.EncodeInjective(p.id, q.id);
  }

  /** A cursor holding a byte outside the base64 alphabet, other than `=`, `\r` and `\n`,
      is rejected. */
  lemma ForeignByteRejected(cursor: Str, i: nat)
    requires i < |cursor|
    requires !Base64.InAlphabet(cursor[i]) && cursor[i] != Base64.PadChar && !Base64.IsNewline(cursor[i])
    ensures DecodeCursor(cursor) == Err(CorruptInput)
  {
    Base64.DecodeRejectsForeign(cursor, i);
  }
}

=== FILE: go_strings.dfy ===
/** The one string function the services call: Go's `strings.TrimSpace`, used only to test
    whether a name is blank. */
module GoStrings {
  import opened GoTypes

  /** The ASCII white-space bytes: tab, line feed, vertical tab, form feed, carriage return, space. */
  predicate IsAsciiSpace(b: byte) {
    b == 9 || b == 10 || b == 11 || b == 12 || b == 13 || b == 32
  }

  /** The UTF-8 encodings of the non-ASCII code points that Go's `unicode.IsSpace` accepts:
      U+0085, U+00A0, U+1680, U+2000..U+200A, U+2028, U+2029, U+202F, U+205F and U+3000. */
  predicate IsWideSpace(s: Str)
  {
    || (|s| == 2 && s[0] == 0xC2 && (s[1] == 0x85 || s[1] == 0xA0))
    || (|s| == 3 && s[0] == 0xE1 && s[1] == 0x9A && s[2] == 0x80)
    || (|s| == 3 && s[0] == 0xE2 && s[1] == 0x80 && (0x80 <= s[2] <= 0x8A || s[2] == 0xA8 || s[2] == 0xA9 || s[2] == 0xAF))
    || (|s| == 3 && s[0] == 0xE2 && s[1] == 0x81 && s[2] == 0x9F)
    || (|s| == 3 && s[0] == 0xE3 && s[1] == 0x80 && s[2] == 0x80)
  }

  /** The length of the white-space rune that starts `s`, or 0 when `s` does not start with one.
      An invalid UTF-8 byte decodes to U+FFFD, which is not white space. */
  function LeadingSpace(s: Str): (n: nat)
    ensures n <= |s|
  {
    if |s| >= 1 && IsAsciiSpace(s[0]) then 1
    else if |s| >= 2 && IsWideSpace(s[..2]) then 2
    else if |s| >= 3 && IsWideSpace(s[..3]) then 3
    else 0
  }

  /** Every byte of a wide white-space rune has its high bit set. */
  lemma WideSpaceIsHigh(w: Str)
    requires IsWideSpace(w)
    ensures forall j :: 0 <= j < |w| ==> w[j] >= 0x80
  {
  }

  /** `strings.TrimSpace(s) == ""`: every rune of `s` is white space. */
  predicate IsBlank(s: Str)
    decreases |s|
  {
    |s| == 0 || (LeadingSpace(s) > 0 && IsBlank(s[LeadingSpace(s)..]))
  }

  /** A string that holds a byte which is neither white space nor part of a white-space
      rune is not blank. Only the bytes 0x80 and above can be part of a wide space. */
  lemma {:induction false} PrintableAsciiIsNotBlank(s: Str, i: nat)
    requires i < |s| && 32 < s[i] < 0x80
    ensures !IsBlank(s)
    decreases |s|
  {
    var n := LeadingSpace(s);
    if n > 0 {
      if n == 1 {
        assert i != 0;
      } else {
        assert i >= n by {
          if i < n {
            assert IsWideSpace(s[..n]);
            WideSpaceIsHigh(s[..n]);
          }
        }
      }
      PrintableAsciiIsNotBlank(s[n..], i - n);
    }
  }
}

=== FILE: go_types.dfy ===
/** Go's primitive value types as the services use them: byte strings and 64-bit ints. */
module GoTypes {

  /** One byte of a Go string. */
  newtype byte = b: int | 0 <= b < 256

  /** A Go `string`: an immutable sequence of bytes, usually but not necessarily UTF-8. */
  type Str = seq<byte>

  const MinInt64: int := -0x8000_0000_0000_0000
  const MaxInt64: int := 0x7FFF_FFFF_FFFF_FFFF

  /** Go's `int` on a 64-bit platform. */
  type Int64 = x: int | MinInt64 <= x <= MaxInt64

  /** Two's-complement wrap-around of Go's `int` arithmetic. */
  function Wrap64(x: int): (r: Int64)
    ensures MinInt64 <= x <= MaxInt64 ==> r == x
    ensures MaxInt64 < x <= 2 * MaxInt64 + 1 ==> r == x - 0x1_0000_0000_0000_0000
    ensures 2 * MinInt64 <= x < MinInt64 ==> r == x + 0x1_0000_0000_0000_0000
  {
    (x - MinInt64) % 0x1_0000_0000_0000_0000 + MinInt64
  }

  /** The bytes of a string literal written in ASCII, where each character is one byte. */
  function Lit(s: string): (r: Str)
    requires forall i :: 0 <= i < |s| ==> s[i] as int < 128
    ensures |r| == |s|
    ensures forall i :: 0 <= i < |s| ==> r[i] as int == s[i] as int
  {
    seq(|s|, i requires 0 <= i < |s| => s[i] as int as byte)
  }
}

=== FILE: list_lookup.dfy ===
/** The linear search both in-memory resolvers use to find a record by identifier. */
module ListLookup {
  import opened GoTypes
  import opened Outcomes

  /** The first element of `xs` whose key is `id`: a `for ... range` loop that returns on the
      first match, and `None` when the loop runs out. */
  method FindFirst<T>(xs: seq<T>, key: T -> Str, id: Str) returns (r: Option<T>)
    ensures r.None? <==> forall i :: 0 <= i < |xs| ==> key(xs[i]) != id
    ensures r.Some? ==>
              exists i :: 0 <= i < |xs| && xs[i] == r.value && key(xs[i]) == id
                          && forall j :: 0 <= j < i ==> key(xs[j]) != id
  {
    for i := 0 to |xs|
      invariant forall j :: 0 <= j < i ==> key(xs[j]) != id
    {
      if key(xs[i]) == id {
        return Some(xs[i]);
      }
    }
    return None;
  }
}

=== FILE: order_resolver.dfy ===
/** The in-memory order resolver: a fixed list of orders and three read-only queries over it.
    Its order record has a single product identifier and a textual creation time. */
module OrderResolver {
  import opened GoTypes
  import opened Outcomes
  import ListLookup

  datatype Order = Order(
    id: Str,
    userId: Str,
    productId: Str,
    quantity: Int64,
    totalPrice: real,
    status: Str,
    createdAt: Str)

  /** The resolver's state: the list it was built with. */
  datatype Resolver = Resolver(orders: seq<Order>)

  datatype OrderError = OrderNotFound   // "order not found"

  /** `NewResolver`: the three seed orders. */
  function NewResolver(): (r: Resolver)
    ensures |r.orders| == 3
    ensures forall i, j :: 0 <= i < j < |r.orders| ==> r.orders[i].id != r.orders[j].id
    ensures forall i :: 0 <= i < |r.orders| ==> r.orders[i].quantity > 0 && r.orders[i].totalPrice > 0.0
  {
    var one := Lit("1");
    var two := Lit("2");
    var three := Lit("3");
    assert one[0] != two[0] && one[0] != three[0] && two[0] != three[0];
    Resolver([
      Order(one, one, one, 2, 2599.98, Lit("completed"), Lit("2025-06-15T10:30:00Z")),
      Order(two, two, two, 1, 799.99, Lit("pending"), Lit("2025-06-16T14:20:00Z")),
      Order(three, one, three, 1, 199.99, Lit("shipped"), Lit("2025-06-17T09:15:00Z"))
    ])
  }

  /** `Orders`: the stored list, as it is. */
  function Orders(r: Resolver): (orders: seq<Order>)
    ensures orders == r.orders
  {
    r.orders
  }

  /** `Order`: the first order in the list with that identifier. */
  method GetOrder(r: Resolver, id: Str) returns (res: Result<Order, OrderError>)
    ensures res.Err? <==> forall i :: 0 <= i < |r.orders| ==> r.orders[i].id != id
    ensures res.Err? ==> res.error == OrderNotFound
    ensures res.Ok? ==>
              exists i :: 0 <= i < |r.orders| && r.orders[i] == res.value && res.value.id == id
                          && forall j :: 0 <= j < i ==> r.orders[j].id != id
  {
    var found := ListLookup.FindFirst(r.orders, (o: Order) => o.id, id);
    match found {
      case None => res := Err(OrderNotFound);
      case Some(o) => res := Ok(o);
    }
  }

  /** The orders of `xs` placed by `userId`, in list order. */
  function OwnedBy(xs: seq<Order>, userId: Str): (owned: seq<Order>)
    decreases |xs|
  {
    if |xs| == 0 then []
    else (if xs[0].userId == userId then [xs[0]] else []) + OwnedBy(xs[1..], userId)
  }

  lemma {:induction false} OwnedByAppend(a: seq<Order>, b: seq<Order>, userId: Str)
    ensures OwnedBy(a + b, userId) == OwnedBy(a, userId) + OwnedBy(b, userId)
    decreases |a|
  {
    if |a| > 0 {
      assert (a + b)[1..] == a[1..] + b;
      OwnedByAppend(a[1..], b, userId);
    } else {
      assert a + b == b;
    }
  }

  /** An order is selected exactly when it is in the list and belongs to the user. */
  lemma {:induction false} OwnedByMembers(xs: seq<Order>, userId: Str)
    ensures forall o :: o in OwnedBy(xs, userId) <==> o in xs && o.userId == userId
    decreases |xs|
  {
    if |xs| > 0 {
      OwnedByMembers(xs[1..], userId);
      assert xs == [xs[0]] + xs[1..];
    }
  }

  /** `OrdersByUser`: exactly the user's orders, in list order; an empty list, never an error,
      when the user has none. */
  method OrdersByUser(r: Resolver, userId: Str) returns (userOrders: seq<Order>)
    ensures userOrders == OwnedBy(r.orders, userId)
    ensures forall o :: o in userOrders <==> o in r.orders && o.userId == userId
  {
    userOrders := [];
    for i := 0 to |r.orders|
      invariant userOrders == OwnedBy(r.orders[..i], userId)
    {
      OwnedByAppend(r.orders[..i], [r.orders[i]], userId);
      assert r.orders[..i + 1] == r.orders[..i] + [r.orders[i]];
      if r.orders[i].userId == userId {
        userOrders := userOrders + [r.orders[i]];
      }
    }
    assert r.orders[..|r.orders|] == r.orders;
    OwnedByMembers(r.orders, userId);
  }

  /** The user selections of two different users share no order. */
  lemma OwnedByIsolates(xs: seq<Order>, u: Str, v: Str)
    requires u != v
    ensures forall o :: o in OwnedBy(xs, u) ==> o !in OwnedBy(xs, v)
  {
    OwnedByMembers(xs, u);
    OwnedByMembers(xs, v);
  }

  /** With the seed data, user "1" has orders "1" and "3", in that order. */
  lemma SeedOrdersOfUserOne()
    ensures OwnedBy(NewResolver().orders, Lit("1")) == [NewResolver().orders[0], NewResolver().orders[2]]
  {
    var xs := NewResolver().orders;
    assert Lit("1") == [49];
    assert Lit("2") == [50];
    assert xs[1..][1..][1..] == [];
  }
}

=== FILE: outcomes.dfy ===
/** The shapes of Go's `(value, error)` returns. */
module Outcomes {

  /** A Go pointer used as an optional value: `nil` is `None`. */
  datatype Option<+T> = None | Some(value: T)

  /** A Go `(value, error)` pair in which exactly one side is meaningful. */
  datatype Result<+T, +E> = Ok(value: T) | Err(error: E)

  /** What a service operation answers, together with the table it leaves behind. */
  datatype Step<+T, +E, +S> = Step(result: Result<T, E>, state: S)
}

=== FILE: product_laws.dfy ===
/** Properties that relate several product-service calls, and the stock invariant. */
module ProductLaws {
  import opened GoTypes
  import opened Outcomes
  import opened GoStrings
  import opened ProductModel
  import opened ProductService

  /** A created product can be read back under its identifier, and the table grows by one row. */
  lemma CreateThenGet(t: ProductTable, id: Str, name: Str, price: real, description: Str, inventory: Int64)
    requires WellKeyed(t) && id != [] && id !in t
    requires CreateProduct(t, id, name, price, description, inventory).result.Ok?
    ensures var out := CreateProduct(t, id, name, price, description, inventory);
            && GetProductByID(out.state, id) == out.result
            && CountProducts(out.state) == CountProducts(t) + 1
  {
  }

  /** A rejected create leaves the row count as it was. */
  lemma RejectedCreateKeepsCount(t: ProductTable, id: Str, name: Str, price: real, description: Str, inventory: Int64)
    requires WellKeyed(t) && id != [] && id !in t
    requires IsBlank(name) || price <= 0.0 || inventory < 0
    ensures CountProducts(CreateProduct(t, id, name, price, description, inventory).state) == CountProducts(t)
  {
  }

  /** An empty name is rejected before anything else is looked at; "Widget" is accepted. */
  lemma CreateExamples(t: ProductTable, id: Str)
    requires WellKeyed(t) && id != [] && id !in t
    ensures CreateProduct(t, id, [], 29.99, Lit("Simple widget"), 50) == Step(Err(InvalidName), t)
    ensures var out := CreateProduct(t, id, Lit("Widget"), 29.99, Lit("Simple widget"), 50);
            && out.result.Ok?
            && out.result.value.name == Lit("Widget")
            && out.result.value.price == 29.99
            && out.result.value.available
  {
    PrintableAsciiIsNotBlank(Lit("Widget"), 0);
  }

  lemma CreateKeepsStockConsistent(t: ProductTable, id: Str, name: Str, price: real, description: Str, inventory: Int64)
    requires WellKeyed(t) && id != [] && id !in t && StockConsistent(t)
    ensures StockConsistent(CreateProduct(t, id, name, price, description, inventory).state)
  {
  }

  /** Applying the same update twice is the same as applying it once. */
  lemma UpdateIsIdempotent(t: ProductTable, id: Str, input: UpdateProductInput)
    requires WellKeyed(t)
    ensures var once := UpdateProduct(t, id, input);
            UpdateProduct(once.state, id, input) == once
  {
    var once := UpdateProduct(t, id, input);
    if id in t {
      var p := once.result.value;
      assert once.state[id := p] == once.state;
    }
  }

  /** An update with no field present writes nothing and answers the stored product. */
  lemma EmptyUpdateChangesNothing(t: ProductTable, id: Str)
    requires WellKeyed(t) && id in t
    ensures UpdateProduct(t, id, UpdateProductInput(None, None, None, None)) == Step(Ok(t[id]), t)
  {
    assert t[id := t[id]] == t;
  }

  /** Updates leave the availability flag alone, so setting the inventory to zero can leave an
      available product without stock. */
  lemma UpdateMayBreakStockConsistency(id: Str)
    ensures var t := map[id := Product(id, Lit("Widget"), 1.0, None, 5, true)];
            && WellKeyed(t)
            && StockConsistent(t)
            && !StockConsistent(UpdateProduct(t, id, UpdateProductInput(None, None, None, Some(0))).state)
  {
    var t := map[id := Product(id, Lit("Widget"), 1.0, None, 5, true)];
    var after := UpdateProduct(t, id, UpdateProductInput(None, None, None, Some(0))).state;
    assert after[id].available && after[id].inventory == 0;
  }

  /** Deleting by identifier removes exactly that row. */
  lemma DeleteByIdRemovesOneRow(t: ProductTable, id: Str, name: Option<Str>)
    requires WellKeyed(t) && id in t
    ensures var out := DeleteProduct(t, DeleteProductInput(Some(id), name));
            && out.result == Ok(true)
            && out.state.Keys == t.Keys - {id}
            && CountProducts(out.state) == CountProducts(t) - 1
  {
    var out := DeleteProduct(t, DeleteProductInput(Some(id), name));
    assert MatchesDelete(t[id], DeleteProductInput(Some(id), name));
    assert out.state.Keys == t.Keys - {id};
  }

  /** Deleting the same identifier twice: the second delete answers "product not found" and
      changes neither the table nor its row count. */
  lemma DeleteTwice(t: ProductTable, id: Str)
    requires WellKeyed(t) && id in t
    ensures var first := DeleteProduct(t, DeleteProductInput(Some(id), None));
            var second := DeleteProduct(first.state, DeleteProductInput(Some(id), None));
            && first.result == Ok(true)
            && second == Step(Err(ProductNotFound), first.state)
            && CountProducts(second.state) == CountProducts(first.state) == CountProducts(t) - 1
  {
    DeleteByIdRemovesOneRow(t, id, None);
  }

  /** After a delete by name no product of that name is left, and every other row is kept. */
  lemma DeleteByNameRemovesAll(t: ProductTable, name: Str)
    requires WellKeyed(t)
    ensures var out := DeleteProduct(t, DeleteProductInput(None, Some(name)));
            && (forall k :: k in out.state ==> out.state[k].name != name)
            && (forall k :: k in t && t[k].name != name ==> k in out.state && out.state[k] == t[k])
  {
  }

  lemma DeleteKeepsStockConsistent(t: ProductTable, input: DeleteProductInput)
    requires WellKeyed(t) && StockConsistent(t)
    ensures StockConsistent(DeleteProduct(t, input).state)
  {
  }

  /** A restock that does not overflow keeps every available product stocked. */
  lemma RestockKeepsStockConsistent(t: ProductTable, id: Str, quantity: Int64)
    requires WellKeyed(t) && StockConsistent(t)
    requires id in t ==> t[id].inventory + quantity <= MaxInt64
    ensures StockConsistent(RestockProduct(t, id, quantity).state)
  {
  }

  /** Go's `+=` wraps: restocking a full inventory by one leaves it at the most negative value,
      and an available product without stock. */
  lemma RestockOverflowWraps(id: Str)
    ensures var t := map[id := Product(id, Lit("Widget"), 1.0, None, MaxInt64, true)];
            var out := RestockProduct(t, id, 1);
            && StockConsistent(t)
            && out.result.Ok?
            && out.result.value.inventory == MinInt64
            && !StockConsistent(out.state)
  {
    var t := map[id := Product(id, Lit("Widget"), 1.0, None, MaxInt64, true)];
    var out := RestockProduct(t, id, 1);
    assert out.state[id] == out.result.value;
    assert out.state[id].available && out.state[id].inventory < 0;
  }

  /** Restocking never adds or removes rows. */
  lemma RestockKeepsCount(t: ProductTable, id: Str, quantity: Int64)
    requires WellKeyed(t)
    ensures CountProducts(RestockProduct(t, id, quantity).state) == CountProducts(t)
  {
  }

  lemma SetAvailabilityKeepsStockConsistent(t: ProductTable, id: Str, available: bool)
    requires WellKeyed(t) && StockConsistent(t)
    ensures StockConsistent(SetProductAvailability(t, id, available).state)
  {
  }

  /** Repeating a successful availability change is refused as a no-op that writes nothing and
      answers the product as the first call left it. */
  lemma SetAvailabilityTwice(t: ProductTable, id: Str, available: bool)
    requires WellKeyed(t)
    requires SetProductAvailability(t, id, available).result.Ok?
    ensures var first := SetProductAvailability(t, id, available);
            SetProductAvailability(first.state, id, available)
              == Step(Err(AvailabilityAlreadySet(first.result.value)), first.state)
  {
  }

  /** Withdrawing a stocked product and offering it again restores the table exactly. */
  lemma WithdrawThenOffer(t: ProductTable, id: Str)
    requires WellKeyed(t) && id in t && t[id].available && t[id].inventory > 0
    ensures var off := SetProductAvailability(t, id, false);
            var on := SetProductAvailability(off.state, id, true);
            && off.result.Ok?
            && on == Step(Ok(t[id]), t)
  {
    var off := SetProductAvailability(t, id, false);
    assert off.state[id := t[id]] == t;
  }
}

=== FILE: product_model.dfy ===
/** The product records and the inputs of the product mutations. */
module ProductModel {
  import opened GoTypes
  import opened Outcomes

  /** A row of the `products` table. The price is a `float64` in Go; only its sign is ever
      inspected, so it is a real number here. */
  datatype Product = Product(
    id: Str,
    name: Str,
    price: real,
    description: Option<Str>,
    inventory: Int64,
    available: bool)

  /** The fields of an update; an absent field is left as it is. */
  datatype UpdateProductInput = UpdateProductInput(
    name: Option<Str>,
    price: Option<real>,
    description: Option<Str>,
    inventory: Option<Int64>)

  /** Which products to delete: by identifier, or else by name. */
  datatype DeleteProductInput = DeleteProductInput(id: Option<Str>, name: Option<Str>)
}

=== FILE: product_paging.dfy ===
/** Keyset pagination of the product listing: `WHERE id > <decoded cursor> ORDER BY id ASC
    LIMIT first + 1`, with the extra row telling whether another page follows. */
module ProductPaging {
  import opened GoTypes
  import opened Outcomes
  import opened StringOrder
  import opened ProductModel
  import opened ProductService
  import Cursor
  import Table

  /** One page of the listing and whether more products follow it. */
  datatype Page = Page(products: seq<Product>, hasNextPage: bool)

  /** The lower bound set by the `after` argument: none when it is nil or empty, otherwise the
      identifier the cursor decodes to. */
  function AfterBound(after: Option<Str>): (r: Result<Option<Str>, ProductError>)
    ensures after.None? || after == Some([]) ==> r == Ok(None)
    ensures after.Some? && after.value != [] ==>
              (r.Ok? <==> Cursor.DecodeCursor(after.value).Ok?)
    ensures r.Err? ==> r.error == InvalidCursor
    ensures r.Ok? && r.value.Some? ==> after.Some? && Cursor.DecodeCursor(after.value) == Ok(r.value.value)
    ensures after.Some? && after.value != [] && Cursor.DecodeCursor(after.value).Ok? ==>
              r == Ok(Some(Cursor.DecodeCursor(after.value).value))
  {
    if after.None? || after.value == [] then Ok(None)
    else match Cursor.DecodeCursor(after.value)
      case Err(_) => Err(InvalidCursor)
      case Ok(id) => Ok(Some(id))
  }

  /** Whether an identifier passes the `id > ?` filter. */
  predicate Above(lower: Option<Str>, id: Str) {
    lower.None? || Less(lower.value, id)
  }

  /** The identifiers the filtered query can return. */
  ghost function Candidates(t: ProductTable, lower: Option<Str>): (c: set<Str>) {
    set k | k in t && Above(lower, k)
  }

  function Ids(ps: seq<Product>): (ids: seq<Str>)
    ensures |ids| == |ps|
    ensures forall i :: 0 <= i < |ps| ==> ids[i] == ps[i].id
  {
    seq(|ps|, i requires 0 <= i < |ps| => ps[i].id)
  }

  /** `page` is the answer to a listing of at most `first` products above `lower`: stored
      products above the bound, in strictly ascending identifier order, with nothing above the
      bound skipped before the last of them, as many as there are up to `first`, and
      `hasNextPage` exactly when more than `first` products lie above the bound. */
  ghost predicate IsPage(t: ProductTable, lower: Option<Str>, first: nat, page: Page) {
    var c := Candidates(t, lower);
    var ps := page.products;
    && |ps| == (if |c| < first then |c| else first)
    && (forall i :: 0 <= i < |ps| ==> ps[i].id in c && t[ps[i].id] == ps[i])
    && StrictlySorted(Ids(ps))
    && (forall k, i :: k in c && k !in Ids(ps) && 0 <= i < |ps| ==> Less(ps[i].id, k))
    && (page.hasNextPage <==> |c| > first)
  }

  /** `GetAllProductsCursor` for a non-negative page size. */
  method GetAllProductsCursor(t: ProductTable, after: Option<Str>, first: nat)
    returns (r: Result<Page, ProductError>)
    requires WellKeyed(t)
    ensures r.Err? <==> AfterBound(after).Err?
    ensures r.Err? ==> r.error == InvalidCursor
    ensures r.Ok? ==> IsPage(t, AfterBound(after).value, first, r.value)
  {
    var lower: Option<Str>;
    match AfterBound(after) {
      case Err(e) =>
        return Err(e);
      case Ok(l) =>
        lower := l;
    }
    var c := set k | k in t && Above(lower, k);
    assert c == Candidates(t, lower);
    var ids := Table.SortKeys(c);
    var fetched := if |ids| <= first + 1 then ids else ids[..first + 1];   // LIMIT first + 1
    var hasNextPage := |fetched| > first;
    var kept := if hasNextPage then fetched[..first] else fetched;
    SortedPrefixIsPage(t, lower, first, ids, kept, hasNextPage);
    r := Ok(Page(Table.Rows(t, kept), hasNextPage));
  }

  /** The first `first` of the sorted candidates, with whether more follow, form the page. */
  lemma SortedPrefixIsPage(t: ProductTable, lower: Option<Str>, first: nat, ids: seq<Str>, kept: seq<Str>, hasNextPage: bool)
    requires WellKeyed(t)
    requires StrictlySorted(ids)
    requires forall k :: k in Candidates(t, lower) <==> k in ids
    requires |ids| == |Candidates(t, lower)|
    requires kept == ids[..if |ids| < first then |ids| else first]
    requires hasNextPage <==> |ids| > first
    ensures forall i :: 0 <= i < |kept| ==> kept[i] in t
    ensures IsPage(t, lower, first, Page(Table.Rows(t, kept), hasNextPage))
  {
    var c := Candidates(t, lower);
    assert forall i :: 0 <= i < |kept| ==> kept[i] == ids[i] && kept[i] in c;
    var rows := Table.Rows(t, kept);
    assert Ids(rows) == kept;
    forall k, i | k in c && k !in kept && 0 <= i < |rows|
      ensures Less(rows[i].id, k)
    {
      var j :| 0 <= j < |ids| && ids[j] == k;
      assert j >= |kept|;
    }
  }

  // ---------------------------------------------------------------------------------------
  // Properties of pages

  /** The set of the strings of a sequence. */
  ghost function Elements(s: seq<Str>): (xs: set<Str>) {
    set x | x in s
  }

  lemma {:induction false} SortedCardinality(s: seq<Str>)
    requires StrictlySorted(s)
    ensures |Elements(s)| == |s|
    decreases |s|
  {
    if |s| > 0 {
      var init, x := s[..|s| - 1], s[|s| - 1];
      assert StrictlySorted(init) by {
        forall i, j | 0 <= i < j < |init|
          ensures Less(init[i], init[j])
        {
          assert init[i] == s[i] && init[j] == s[j];
        }
      }
      SortedCardinality(init);
      assert x !in Elements(init) by {
        if x in init {
          var i :| 0 <= i < |init| && init[i] == x;
          SortedIsDistinct(s, i, |s| - 1);
        }
      }
      assert s == init + [x];
      assert Elements(s) == Elements(init) + {x};
    }
  }

  /** A page is determined by the table, the bound and the page size. */
  lemma PageIsUnique(t: ProductTable, lower: Option<Str>, first: nat, p: Page, q: Page)
    requires WellKeyed(t)
    requires IsPage(t, lower, first, p) && IsPage(t, lower, first, q)
    ensures p == q
  {
    var ps, qs := p.products, q.products;
    var a, b := Ids(ps), Ids(qs);
    forall i | 0 <= i < |ps|
      ensures ps[i] == qs[i]
    {
      FirstDifference(t, lower, first, p, q, i);
    }
    assert ps == qs;
  }

  /** Without a cursor, a page at least as large as the table holds every stored product, the
      same rows `GetAllProducts` answers, and reports no next page. */
  lemma OnePageHoldsAll(t: ProductTable, first: nat, page: Page)
    requires WellKeyed(t)
    requires IsPage(t, None, first, page)
    requires |t| <= first
    ensures !page.hasNextPage
    ensures |page.products| == |t|
    ensures forall k :: k in t ==> t[k] in page.products
  {
    var c := Candidates(t, None);
    var ps := page.products;
    var ids := Ids(ps);
    assert c == t.Keys;
    SortedCardinality(ids);
    assert Elements(ids) <= c by {
      forall x | x in Elements(ids)
        ensures x in c
      {
        var i :| 0 <= i < |ids| && ids[i] == x;
      }
    }
    SubsetOfSameSize(Elements(ids), c);
    forall k | k in t
      ensures t[k] in ps
    {
      assert k in Elements(ids);
      var i :| 0 <= i < |ids| && ids[i] == k;
      assert ps[i] == t[k];
    }
  }

  /** A subset as large as its superset is the whole superset. */
  lemma {:induction false} SubsetOfSameSize(a: set<Str>, b: set<Str>)
    requires a <= b && |a| == |b|
    ensures a == b
    decreases |a|
  {
    if a != {} {
      var y :| y in a;
      SubsetOfSameSize(a - {y}, b - {y});
      assert a == (a - {y}) + {y} && b == (b - {y}) + {y};
    }
  }

  /** Two pages agree at every position, by induction on the position. */
  lemma {:induction false} FirstDifference(t: ProductTable, lower: Option<Str>, first: nat, p: Page, q: Page, i: nat)
    requires WellKeyed(t)
    requires IsPage(t, lower, first, p) && IsPage(t, lower, first, q)
    requires i < |p.products|
    ensures p.products[i] == q.products[i]
    decreases i
  {
    var ps, qs := p.products, q.products;
    var c := Candidates(t, lower);
    forall j | 0 <= j < i
      ensures ps[j] == qs[j]
    {
      FirstDifference(t, lower, first, p, q, j);
    }
    var x, y := ps[i].id, qs[i].id;
    if x != y {
      LessTotal(x, y);
      if Less(x, y) {
        NotEarlier(t, lower, first, p, q, i);
        LessAsymmetric(x, y);
      } else {
        NotEarlier(t, lower, first, q, p, i);
      }
    }
  }

  /** If two pages agree before position `i` and `p` has the smaller identifier at `i`, that
      identifier is absent from `q`, so `q` lists it... which the page property forbids. */
  lemma NotEarlier(t: ProductTable, lower: Option<Str>, first: nat, p: Page, q: Page, i: nat)
    requires WellKeyed(t)
    requires IsPage(t, lower, first, p) && IsPage(t, lower, first, q)
    requires i < |p.products| && i < |q.products|
    requires forall j :: 0 <= j < i ==> p.products[j] == q.products[j]
    requires Less(p.products[i].id, q.products[i].id)
    ensures Less(q.products[i].id, p.products[i].id)
  {
    var ps, qs := p.products, q.products;
    var x := ps[i].id;
    assert x !in Ids(qs) by {
      if x in Ids(qs) {
        var j :| 0 <= j < |qs| && Ids(qs)[j] == x;
        if j < i {
          assert Less(Ids(ps)[j], Ids(ps)[i]);
          LessIrreflexive(x);
        } else if j == i {
          LessIrreflexive(x);
        } else {
          assert Less(Ids(qs)[i], Ids(qs)[j]);
          LessTransitive(x, qs[i].id, x);
          LessIrreflexive(x);
        }
      }
    }
    assert Less(qs[i].id, x);
  }

  // ---------------------------------------------------------------------------------------
  // Reading on

  /** The cursor of a product with a non-empty identifier resumes the listing just after it.
      An empty identifier encodes to the empty cursor, which restarts the listing instead. */
  lemma CursorResumesAfter(p: Product)
    ensures p.id != [] ==> AfterBound(Some(Cursor.EncodeCursor(p))) == Ok(Some(p.id))
    ensures p.id == [] ==> AfterBound(Some(Cursor.EncodeCursor(p))) == Ok(None)
  {
    Cursor.CursorRoundTrip(p);
  }

  /** Every identifier of a strictly sorted sequence is at or before its last one. */
  lemma UpToLast(a: seq<Str>, i: int)
    requires StrictlySorted(a) && 0 <= i < |a|
    ensures a[i] == a[|a| - 1] || Less(a[i], a[|a| - 1])
  {
  }

  /** The candidates above a page's lower bound are the page's own identifiers together with the
      candidates above its last identifier. */
  lemma SplitAtPage(t: ProductTable, lower: Option<Str>, n: nat, p: Page)
    requires WellKeyed(t)
    requires IsPage(t, lower, n, p) && |p.products| > 0
    ensures var a := Ids(p.products);
            var d := Candidates(t, Some(a[|a| - 1]));
            && Candidates(t, lower) == Elements(a) + d
            && |Candidates(t, lower)| == |a| + |d|
  {
    var a := Ids(p.products);
    var z := |a| - 1;
    var last := a[z];
    var c, d := Candidates(t, lower), Candidates(t, Some(last));
    assert last in c;
    forall k | k in d
      ensures k in c && k !in Elements(a)
    {
      if lower.Some? {
        LessTransitive(lower.value, last, k);
      }
      if k in a {
        var i :| 0 <= i < |a| && a[i] == k;
        UpToLast(a, i);
        if i < z {
          LessAsymmetric(k, last);
        } else {
          LessIrreflexive(k);
        }
      }
    }
    forall k | k in c && k !in Elements(a)
      ensures k in d
    {
      assert Less(p.products[z].id, k);
    }
    assert c == Elements(a) + d;
    assert Elements(a) * d == {};
    SortedCardinality(a);
  }

  /** Two strictly sorted sequences, the second wholly after the last of the first, concatenate
      to a strictly sorted sequence. */
  lemma ConcatSorted(a: seq<Str>, b: seq<Str>)
    requires StrictlySorted(a) && StrictlySorted(b) && |a| > 0
    requires forall j :: 0 <= j < |b| ==> Less(a[|a| - 1], b[j])
    ensures StrictlySorted(a + b)
  {
    forall i, j | 0 <= i < j < |a + b|
      ensures Less((a + b)[i], (a + b)[j])
    {
      if j < |a| {
      } else if i < |a| {
        UpToLast(a, i);
        if i < |a| - 1 {
          LessTransitive(a[i], a[|a| - 1], b[j - |a|]);
        }
      } else {
        assert Less(b[i - |a|], b[j - |a|]);
      }
    }
  }

  /** Nothing is skipped across the boundary of two consecutive pages: a candidate on neither
      page sorts after both. */
  lemma NoGapAcross(a: seq<Str>, b: seq<Str>, c: set<Str>, d: set<Str>)
    requires StrictlySorted(a) && |a| > 0
    requires c == Elements(a) + d
    requires forall k :: k in d ==> Less(a[|a| - 1], k)
    requires forall k, j :: k in d && k !in b && 0 <= j < |b| ==> Less(b[j], k)
    ensures forall k, i :: k in c && k !in a + b && 0 <= i < |a + b| ==> Less((a + b)[i], k)
  {
    var last := a[|a| - 1];
    forall k, i | k in c && k !in a + b && 0 <= i < |a + b|
      ensures Less((a + b)[i], k)
    {
      assert k !in a && k !in b;
      assert k in d;
      if i < |a| {
        UpToLast(a, i);
        if i < |a| - 1 {
          LessTransitive(a[i], last, k);
        }
      } else {
        assert (a + b)[i] == b[i - |a|];
      }
    }
  }

  lemma IdsAppend(xs: seq<Product>, ys: seq<Product>)
    ensures Ids(xs + ys) == Ids(xs) + Ids(ys)
  {
  }

  /** Reading on from the last product of a full page: the two pages together form the page of
      the combined size, so nothing is skipped and nothing is listed twice. */
  lemma NextPageContinues(t: ProductTable, lower: Option<Str>, n: nat, m: nat, p1: Page, p2: Page)
    requires WellKeyed(t)
    requires IsPage(t, lower, n, p1) && p1.hasNextPage && |p1.products| > 0
    requires IsPage(t, Some(p1.products[|p1.products| - 1].id), m, p2)
    ensures IsPage(t, lower, n + m, Page(p1.products + p2.products, p2.hasNextPage))
  {
    var xs, ys := p1.products, p2.products;
    var a, b := Ids(xs), Ids(ys);
    var last := a[|a| - 1];
    var c, d := Candidates(t, lower), Candidates(t, Some(last));
    SplitAtPage(t, lower, n, p1);
    var zs := xs + ys;
    IdsAppend(xs, ys);
    assert forall k :: k in d ==> Less(last, k);
    assert forall j :: 0 <= j < |b| ==> b[j] in d;
    ConcatSorted(a, b);
    NoGapAcross(a, b, c, d);
    forall i | 0 <= i < |zs|
      ensures zs[i].id in c && t[zs[i].id] == zs[i]
    {
      if i >= |xs| {
        assert zs[i] == ys[i - |xs|];
      }
    }
  }
}

=== FILE: product_resolver.dfy ===
/** The in-memory product resolver: a fixed list of products and two read-only queries. */
module ProductResolver {
  import opened GoTypes
  import opened Outcomes
  import opened ProductModel
  import ListLookup

  /** The resolver's state: the list it was built with. */
  datatype Resolver = Resolver(products: seq<Product>)

  datatype ResolverError = ProductNotFound   // "product not found"

  /** `stringPtr`: a present optional string holding exactly `s`. */
  function StringPtr(s: Str): (p: Option<Str>)
    ensures p.Some? && p.value == s
  {
    Some(s)
  }

  /** `NewResolver`: the three seed products. `Available` is not set, so it is false. */
  function NewResolver(): (r: Resolver)
    ensures |r.products| == 3
    ensures forall i, j :: 0 <= i < j < |r.products| ==> r.products[i].id != r.products[j].id
    ensures forall i :: 0 <= i < |r.products| ==>
              && !r.products[i].available
              && r.products[i].inventory > 0
              && r.products[i].description.Some?
  {
    var one := Lit("1");
    var two := Lit("2");
    var three := Lit("3");
    assert one[0] != two[0] && one[0] != three[0] && two[0] != three[0];
    Resolver([
      Product(one, Lit("Gaming Laptop"), 1299.99, StringPtr(Lit("High-performance gaming laptop")), 15, false),
      Product(two, Lit("Smartphone"), 799.99, StringPtr(Lit("Latest flagship smartphone")), 50, false),
      Product(three, Lit("Wireless Headphones"), 199.99, StringPtr(Lit("Noise-canceling wireless headphones")), 30, false)
    ])
  }

  /** `Products`: the stored list, as it is. */
  function Products(r: Resolver): (products: seq<Product>)
    ensures products == r.products
  {
    r.products
  }

  /** `Product`: the first product in the list with that identifier. */
  method GetProduct(r: Resolver, id: Str) returns (res: Result<Product, ResolverError>)
    ensures res.Err? <==> forall i :: 0 <= i < |r.products| ==> r.products[i].id != id
    ensures res.Err? ==> res.error == ProductNotFound
    ensures res.Ok? ==>
              exists i :: 0 <= i < |r.products| && r.products[i] == res.value && res.value.id == id
                          && forall j :: 0 <= j < i ==> r.products[j].id != id
  {
    var found := ListLookup.FindFirst(r.products, (p: Product) => p.id, id);
    match found {
      case None => res := Err(ProductNotFound);
      case Some(p) => res := Ok(p);
    }
  }
}

=== FILE: product_service.dfy ===
/** The product service: validation and create/read/update/delete over the `products` table.
    Each call is atomic and returns its answer together with the table it leaves behind. */
module ProductService {
  import opened GoTypes
  import opened Outcomes
  import opened GoStrings
  import opened ProductModel
  import Table

  /** The `products` table, indexed by its primary key. */
  type ProductTable = map<Str, Product>

  /** Every row is stored under its own identifier. */
  ghost predicate WellKeyed(t: ProductTable) {
    Table.WellKeyed(t, (r: Product) => r.id)
  }

  /** The service's errors, one per error it returns. */
  datatype ProductError =
    | InvalidName                             // "invalid product name: missing or invalid field"
    | NonPositivePrice                        // "price must be greater than zero"
    | NegativeInventory                       // " inventory cannot be negative"
    | RecordNotFound                          // the store's answer when `First` finds no row
    | MissingDeleteKey                        // "either ID or Name must be provided for deletion"
    | ProductNotFound                         // "product not found"
    | InvalidRestockAmount                    // "invalid restock amount: must be greater than zero"
    | AvailabilityAlreadySet(current: Product) // "product already availability set to %t", sent with the product
    | ZeroInventory                           // "cannot mark product as available with zero inventory"
    | InvalidCursor                           // "invalid cursor: %w"

  type ProductStep<T> = Step<T, ProductError, ProductTable>

  /** Every product marked available has stock. The availability setter refuses to break this;
      updates do not check it. */
  ghost predicate StockConsistent(t: ProductTable) {
    forall k :: k in t && t[k].available ==> t[k].inventory > 0
  }

  // ---------------------------------------------------------------------------------------
  // Queries

  /** `GetAllProducts`: every stored product exactly once. */
  method GetAllProducts(t: ProductTable) returns (rows: seq<Product>)
    requires WellKeyed(t)
    ensures |rows| == |t|
    ensures forall i :: 0 <= i < |rows| ==> rows[i].id in t && t[rows[i].id] == rows[i]
    ensures forall k :: k in t ==> t[k] in rows
  {
    var keys;
    keys, rows := Table.Scan(t);
  }

  /** `GetProductByID`. */
  function GetProductByID(t: ProductTable, id: Str): (r: Result<Product, ProductError>)
    requires WellKeyed(t)
    ensures r.Ok? <==> id in t
    ensures r.Ok? ==> r.value.id == id && t[id] == r.value
    ensures r.Err? ==> r.error == RecordNotFound
  {
    if id in t then Ok(t[id]) else Err(RecordNotFound)
  }

  /** `CountProducts`: the number of rows, unfiltered. */
  function CountProducts(t: ProductTable): (n: nat)
    ensures n == |t.Keys|
  {
    |t|
  }

  // ---------------------------------------------------------------------------------------
  // Create

  /** `CreateProduct` with the freshly generated identifier `id`, a UUID and so never empty. The name must not be blank
      after trimming, the price must be positive and the inventory non-negative, checked in
      that order. A new product is available exactly when it has stock. */
  function CreateProduct(t: ProductTable, id: Str, name: Str, price: real, description: Str, inventory: Int64)
    : (out: ProductStep<Product>)
    requires WellKeyed(t) && id != [] && id !in t
    ensures IsBlank(name) ==> out.result == Err(InvalidName)
    ensures !IsBlank(name) && price <= 0.0 ==> out.result == Err(NonPositivePrice)
    ensures !IsBlank(name) && price > 0.0 && inventory < 0 ==> out.result == Err(NegativeInventory)
    ensures out.result.Ok? <==> !IsBlank(name) && price > 0.0 && inventory >= 0
    ensures out.result.Err? ==> out.state == t
    ensures out.result.Ok? ==>
              && out.result.value == Product(id, name, price, Some(description), inventory, inventory > 0)
              && out.state == t[id := out.result.value]
    ensures WellKeyed(out.state)
  {
    if IsBlank(name) then Step(Err(InvalidName), t)
    else if price <= 0.0 then Step(Err(NonPositivePrice), t)
    else if inventory < 0 then Step(Err(NegativeInventory), t)
    else
      var p := Product(id, name, price, Some(description), inventory, inventory > 0);
      Step(Ok(p), t[id := p])
  }

  // ---------------------------------------------------------------------------------------
  // Update

  /** `UpdateProduct`: writes each field whose input is present, one after the other, then
      re-reads the row. An unknown identifier updates no row and the re-read fails. */
  function UpdateProduct(t: ProductTable, id: Str, input: UpdateProductInput): (out: ProductStep<Product>)
    requires WellKeyed(t)
    ensures id !in t ==> out == Step(Err(RecordNotFound), t)
    ensures id in t ==> out.result.Ok? && out.state == t[id := out.result.value]
    ensures out.result.Ok? ==>
              var before, after := t[id], out.result.value;
              && after.id == id
              && after.available == before.available
              && (if input.name.Some? then after.name == input.name.value else after.name == before.name)
              && (if input.price.Some? then after.price == input.price.value else after.price == before.price)
              && (if input.description.Some? then after.description == input.description
                  else after.description == before.description)
              && (if input.inventory.Some? then after.inventory == input.inventory.value
                  else after.inventory == before.inventory)
    ensures WellKeyed(out.state)
  {
    if id !in t then Step(Err(RecordNotFound), t)
    else
      var p := t[id];
      var p := if input.name.Some? then p.(name := input.name.value) else p;
      var p := if input.price.Some? then p.(price := input.price.value) else p;
      var p := if input.description.Some? then p.(description := input.description) else p;
      var p := if input.inventory.Some? then p.(inventory := input.inventory.value) else p;
      Step(Ok(p), t[id := p])
  }

  // ---------------------------------------------------------------------------------------
  // Delete

  /** The `WHERE` clause of a delete: the identifier when one is given, else the name. */
  predicate MatchesDelete(p: Product, input: DeleteProductInput)
    requires input.id.Some? || input.name.Some?
  {
    if input.id.Some? then p.id == input.id.value else p.name == input.name.value
  }

  /** `DeleteProduct`: deletes every matching row. Zero rows affected is "product not found". */
  function DeleteProduct(t: ProductTable, input: DeleteProductInput): (out: ProductStep<bool>)
    requires WellKeyed(t)
    ensures input.id.None? && input.name.None? ==> out == Step(Err(MissingDeleteKey), t)
    ensures input.id.Some? || input.name.Some? ==>
              (out.result.Err? <==> forall k :: k in t ==> !MatchesDelete(t[k], input))
    ensures out.result.Err? ==> out.state == t
    ensures out.result.Err? && (input.id.Some? || input.name.Some?) ==> out.result.error == ProductNotFound
    ensures out.result.Ok? ==>
              && out.result.value
              && (forall k :: k in out.state <==> k in t && !MatchesDelete(t[k], input))
    ensures forall k :: k in out.state ==> k in t && out.state[k] == t[k]
    ensures WellKeyed(out.state)
  {
    if input.id.None? && input.name.None? then Step(Err(MissingDeleteKey), t)
    else
      var hit := set k | k in t && MatchesDelete(t[k], input);
      assert forall k :: k in t && MatchesDelete(t[k], input) ==> k in hit;
      if hit == {} then Step(Err(ProductNotFound), t)   // RowsAffected == 0
      else Step(Ok(true), map k | k in t && k !in hit :: t[k])
  }

  // ---------------------------------------------------------------------------------------
  // Restock and availability

  /** `RestockProduct`: adds a positive quantity to the inventory with Go's wrapping `+=` and
      saves the row. The row is looked up before the quantity is checked. */
  function RestockProduct(t: ProductTable, id: Str, quantity: Int64): (out: ProductStep<Product>)
    requires WellKeyed(t)
    ensures id !in t ==> out == Step(Err(RecordNotFound), t)
    ensures id in t && quantity <= 0 ==> out == Step(Err(InvalidRestockAmount), t)
    ensures out.result.Ok? <==> id in t && quantity > 0
    ensures out.result.Ok? ==>
              var before, after := t[id], out.result.value;
              && out.state == t[id := after]
              && after == before.(inventory := after.inventory)
              && (before.inventory + quantity <= MaxInt64 ==> after.inventory == before.inventory + quantity)
              && (before.inventory + quantity > MaxInt64 ==>
                    after.inventory == before.inventory + quantity - 0x1_0000_0000_0000_0000)
    ensures WellKeyed(out.state)
  {
    if id !in t then Step(Err(RecordNotFound), t)
    else if quantity <= 0 then Step(Err(InvalidRestockAmount), t)
    else
      var p := t[id].(inventory := Wrap64(t[id].inventory + quantity));
      Step(Ok(p), t[id := p])
  }

  /** `SetProductAvailability`: refuses to write the current value (answering with the product
      and an error), and refuses to mark a product without stock available. */
  function SetProductAvailability(t: ProductTable, id: Str, available: bool): (out: ProductStep<Product>)
    requires WellKeyed(t)
    ensures id !in t ==> out == Step(Err(RecordNotFound), t)
    ensures id in t && t[id].available == available ==> out == Step(Err(AvailabilityAlreadySet(t[id])), t)
    ensures id in t && t[id].available != available && available && t[id].inventory <= 0 ==>
              out == Step(Err(ZeroInventory), t)
    ensures out.result.Ok? <==> id in t && t[id].available != available && (available ==> t[id].inventory > 0)
    ensures out.result.Err? ==> out.state == t
    ensures out.result.Ok? ==>
              && out.result.value == t[id].(available := available)
              && out.state == t[id := out.result.value]
    ensures WellKeyed(out.state)
  {
    if id !in t then Step(Err(RecordNotFound), t)
    else if t[id].available == available then Step(Err(AvailabilityAlreadySet(t[id])), t)
    else if available && t[id].inventory <= 0 then Step(Err(ZeroInventory), t)
    else
      var p := t[id].(available := available);
      Step(Ok(p), t[id := p])
  }
}

=== FILE: string_order.dfy ===
/** The order of `ORDER BY id ASC` and `id > ?`: byte-wise lexicographic comparison of Go
    strings. Dafny's own `<` on sequences means "proper prefix", so it is defined here. */
module StringOrder {
  import opened GoTypes

  /** `a` sorts strictly before `b`: at the first differing byte `a` is smaller, or `a` is a
      proper prefix of `b`. */
  predicate Less(a: Str, b: Str)
    decreases |a|
  {
    if |a| == 0 then |b| > 0
    else if |b| == 0 then false
    else if a[0] != b[0] then a[0] < b[0]
    else Less(a[1..], b[1..])
  }

  lemma {:induction false} LessIrreflexive(a: Str)
    ensures !Less(a, a)
    decreases |a|
  {
    if |a| > 0 {
      LessIrreflexive(a[1..]);
    }
  }

  lemma {:induction false} LessTransitive(a: Str, b: Str, c: Str)
    requires Less(a, b) && Less(b, c)
    ensures Less(a, c)
    decreases |a|
  {
    if |a| > 0 && a[0] == b[0] && b[0] == c[0] {
      LessTransitive(a[1..], b[1..], c[1..]);
    }
  }

  /** Any two distinct strings are ordered one way or the other. */
  lemma {:induction false} LessTotal(a: Str, b: Str)
    requires a != b
    ensures Less(a, b) || Less(b, a)
    decreases |a|
  {
    if |a| > 0 && |b| > 0 && a[0] == b[0] {
      assert a == [a[0]] + a[1..] && b == [b[0]] + b[1..];
      LessTotal(a[1..], b[1..]);
    }
  }

  lemma LessAsymmetric(a: Str, b: Str)
    requires Less(a, b)
    ensures !Less(b, a)
  {
    if Less(b, a) {
      LessTransitive(a, b, a);
      LessIrreflexive(a);
    }
  }

  /** Every element of `s` sorts strictly before every later one. */
  ghost predicate StrictlySorted(s: seq<Str>) {
    forall i, j :: 0 <= i < j < |s| ==> Less(s[i], s[j])
  }

  /** A strictly sorted sequence holds no string twice. */
  lemma SortedIsDistinct(s: seq<Str>, i: int, j: int)
    requires StrictlySorted(s)
    requires 0 <= i < |s| && 0 <= j < |s| && i != j
    ensures s[i] != s[j]
  {
    if i < j {
      LessIrreflexive(s[i]);
    } else {
      LessIrreflexive(s[j]);
    }
  }
}

=== FILE: table.dfy ===
/** A table keyed by its string primary key, and the scan that reads it in key order. */
module Table {
  import opened GoTypes
  import opened StringOrder

  /** Every row is stored under its own key, as `key` reads it from the row. */
  ghost predicate WellKeyed<V>(t: map<Str, V>, key: V -> Str) {
    forall k :: k in t ==> key(t[k]) == k
  }

  /** The smallest key of a non-empty set of keys. */
  method MinKey(ks: set<Str>) returns (m: Str)
    requires ks != {}
    ensures m in ks
    ensures forall k :: k in ks && k != m ==> Less(m, k)
  {
    m :| m in ks;
    var todo := ks - {m};
    while todo != {}
      invariant todo <= ks && m in ks && m !in todo
      invariant forall k :: k in ks - todo && k != m ==> Less(m, k)
      decreases |todo|
    {
      var k :| k in todo;
      if Less(k, m) {
        forall j | j in ks - todo && j != k
          ensures Less(k, j)
        {
          if j != m {
            LessTransitive(k, m, j);
          }
        }
        m := k;
      } else {
        LessTotal(k, m);
      }
      todo := todo - {k};
    }
  }

  /** The keys of `ks` in ascending order, each exactly once (selection by repeated minimum). */
  method SortKeys(ks: set<Str>) returns (s: seq<Str>)
    ensures StrictlySorted(s)
    ensures forall k :: k in ks <==> k in s
    ensures |s| == |ks|
  {
    s := [];
    var rest := ks;
    while rest != {}
      invariant rest <= ks
      invariant forall k :: k in ks <==> k in rest || k in s
      invariant forall i :: 0 <= i < |s| ==> s[i] !in rest
      invariant StrictlySorted(s)
      invariant forall i, k :: 0 <= i < |s| && k in rest ==> Less(s[i], k)
      invariant |s| + |rest| == |ks|
      decreases |rest|
    {
      var m := MinKey(rest);
      s := s + [m];
      rest := rest - {m};
    }
  }

  /** The rows stored under `keys`, in the order of `keys`. */
  function Rows<V>(t: map<Str, V>, keys: seq<Str>): (rows: seq<V>)
    requires forall i :: 0 <= i < |keys| ==> keys[i] in t
    ensures |rows| == |keys|
    ensures forall i :: 0 <= i < |keys| ==> rows[i] == t[keys[i]]
  {
    seq(|keys|, i requires 0 <= i < |keys| => t[keys[i]])
  }

  /** A full scan: every key of the table in ascending order, with the row stored under each. */
  method Scan<V>(t: map<Str, V>) returns (keys: seq<Str>, rows: seq<V>)
    ensures StrictlySorted(keys)
    ensures |keys| == |rows| == |t|
    ensures forall i :: 0 <= i < |keys| ==> keys[i] in t && rows[i] == t[keys[i]]
    ensures forall k :: k in t ==> k in keys && t[k] in rows
  {
    keys := SortKeys(t.Keys);
    rows := Rows(t, keys);
    forall k | k in t
      ensures t[k] in rows
    {
      var i :| 0 <= i < |keys| && keys[i] == k;
      assert rows[i] == t[k];
    }
  }
}

=== FILE: user_model.dfy ===
/** The user records and the input of a user update. */
module UserModel {
  import opened GoTypes
  import opened Outcomes

  /** A role is free text: the two named roles are the ones the service knows, but any string
      is stored as given. */
  type Role = Str

  const RoleAdmin: Role := Lit("ADMIN")
  const RoleCustomer: Role := Lit("CUSTOMER")

  /** A row of the `users` table. The password is stored as given. */
  datatype User = User(id: Str, name: Str, email: Str, password: Str, role: Role, active: bool)

  /** The fields of an update, keyed by `id`; an absent field is left as it is. There is no
      password field. */
  datatype UpdateUserInput = UpdateUserInput(
    id: Str,
    name: Option<Str>,
    email: Option<Str>,
    role: Option<Role>,
    active: Option<bool>)
}

=== FILE: user_service.dfy ===
/** The user service: lookups and create/update/delete over the `users` table. Each call is
    atomic and returns its answer together with the table it leaves behind. */
module UserService {
  import opened GoTypes
  import opened Outcomes
  import opened UserModel
  import Table

  /** The `users` table, indexed by its primary key. */
  type UserTable = map<Str, User>

  /** Every row is stored under its own identifier. */
  ghost predicate WellKeyed(t: UserTable) {
    Table.WellKeyed(t, (r: User) => r.id)
  }

  /** The only error the service raises itself: the store's "record not found". */
  datatype UserError = RecordNotFound

  type UserStep<T> = Step<T, UserError, UserTable>

  /** `GetUserByID`. */
  function GetUserByID(t: UserTable, id: Str): (r: Result<User, UserError>)
    requires WellKeyed(t)
    ensures r.Ok? <==> id in t
    ensures r.Ok? ==> r.value.id == id && t[id] == r.value
    ensures r.Err? ==> r.error == RecordNotFound
  {
    if id in t then Ok(t[id]) else Err(RecordNotFound)
  }

  /** `GetAllUsers`: every stored user exactly once, and nothing for an empty table. */
  method GetAllUsers(t: UserTable) returns (users: seq<User>)
    requires WellKeyed(t)
    ensures |users| == |t|
    ensures forall i :: 0 <= i < |users| ==> users[i].id in t && t[users[i].id] == users[i]
    ensures forall k :: k in t ==> t[k] in users
  {
    var keys;
    keys, users := Table.Scan(t);
  }

  /** `CreateUser` with the freshly generated identifier `id`, `user_<nanoseconds>` and so never
      empty. The new user is active whatever `active` says; the other fields are stored as
      given. */
  function CreateUser(t: UserTable, id: Str, name: Str, email: Str, password: Str, role: Role, active: bool)
    : (out: UserStep<User>)
    requires WellKeyed(t) && id != [] && id !in t
    ensures out.result.Ok?
    ensures var u := out.result.value;
            && u.id == id && u.name == name && u.email == email && u.password == password && u.role == role
            && u.active
    ensures out.state == t[id := out.result.value]
    ensures WellKeyed(out.state)
  {
    var u := User(id, name, email, password, role, true);
    Step(Ok(u), t[id := u])
  }

  /** Whether an update carries any field to write. */
  predicate HasChanges(input: UpdateUserInput) {
    input.name.Some? || input.email.Some? || input.role.Some? || input.active.Some?
  }

  /** `UpdateUser`: looks the user up, then writes the present fields in one statement, or
      nothing when no field is present. The identifier and the password are never written. */
  function UpdateUser(t: UserTable, input: UpdateUserInput): (out: UserStep<User>)
    requires WellKeyed(t)
    ensures input.id !in t ==> out == Step(Err(RecordNotFound), t)
    ensures input.id in t ==> out.result.Ok? && out.state == t[input.id := out.result.value]
    ensures out.result.Ok? ==>
              var before, after := t[input.id], out.result.value;
              && after.id == before.id
              && after.password == before.password
              && (if input.name.Some? then after.name == input.name.value else after.name == before.name)
              && (if input.email.Some? then after.email == input.email.value else after.email == before.email)
              && (if input.role.Some? then after.role == input.role.value else after.role == before.role)
              && (if input.active.Some? then after.active == input.active.value else after.active == before.active)
    ensures input.id in t && !HasChanges(input) ==> out == Step(Ok(t[input.id]), t)
    ensures WellKeyed(out.state)
  {
    if input.id !in t then Step(Err(RecordNotFound), t)
    else if !HasChanges(input) then Step(Ok(t[input.id]), t)
    else
      var u := t[input.id];
      var u := if input.name.Some? then u.(name := input.name.value) else u;
      var u := if input.email.Some? then u.(email := input.email.value) else u;
      var u := if input.role.Some? then u.(role := input.role.value) else u;
      var u := if input.active.Some? then u.(active := input.active.value) else u;
      Step(Ok(u), t[input.id := u])
  }

  /** `DeleteUser`: removes the user with that identifier, if any, and reports success either way. */
  function DeleteUser(t: UserTable, id: Str): (out: UserStep<bool>)
    requires WellKeyed(t)
    ensures out.result == Ok(true)
    ensures out.state.Keys == t.Keys - {id}
    ensures forall k :: k in out.state ==> out.state[k] == t[k]
    ensures WellKeyed(out.state)
  {
    Step(Ok(true), t - {id})
  }

  // ---------------------------------------------------------------------------------------
  // Properties relating several calls

  /** A created user can be read back, active, under its identifier. */
  lemma CreateThenGet(t: UserTable, id: Str, name: Str, email: Str, password: Str, role: Role, active: bool)
    requires WellKeyed(t) && id != [] && id !in t
    ensures var out := CreateUser(t, id, name, email, password, role, active);
            && GetUserByID(out.state, id) == out.result
            && |out.state| == |t| + 1
  {
  }

  /** A role outside the two named ones, such as "user", is stored verbatim, and a user asked
      for as inactive is still created active. */
  lemma CreateStoresAnyRole(t: UserTable, id: Str)
    requires WellKeyed(t) && id != [] && id !in t
    ensures var role := Lit("user");
            var out := CreateUser(t, id, Lit("1User"), Lit("1user@test.com"), [], role, false);
            && role != RoleAdmin && role != RoleCustomer
            && out.result.value.role == role
            && out.result.value.active
  {
    assert Lit("user")[0] != RoleAdmin[0] && Lit("user")[0] != RoleCustomer[0];
  }

  /** Applying the same update twice is the same as applying it once. */
  lemma UpdateIsIdempotent(t: UserTable, input: UpdateUserInput)
    requires WellKeyed(t)
    ensures var once := UpdateUser(t, input);
            UpdateUser(once.state, input) == once
  {
    var once := UpdateUser(t, input);
    if input.id in t {
      assert once.state[input.id := once.result.value] == once.state;
    }
  }

  /** An update never adds or removes users and never touches another user. */
  lemma UpdateTouchesOneUser(t: UserTable, input: UpdateUserInput)
    requires WellKeyed(t)
    ensures var out := UpdateUser(t, input);
            && out.state.Keys == t.Keys
            && forall k :: k in t && k != input.id ==> out.state[k] == t[k]
  {
  }

  /** Unlike a product delete, deleting a user twice succeeds both times; the second call
      changes nothing, and afterwards the user cannot be found. */
  lemma DeleteTwice(t: UserTable, id: Str)
    requires WellKeyed(t)
    ensures var first := DeleteUser(t, id);
            var second := DeleteUser(first.state, id);
            && second == Step(Ok(true), first.state)
            && GetUserByID(second.state, id) == Err(RecordNotFound)
  {
    var first := DeleteUser(t, id);
    assert first.state - {id} == first.state;
  }

  /** Deleting an unknown identifier reports success and leaves the table as it was. */
  lemma DeleteUnknownReportsSuccess(t: UserTable, id: Str)
    requires WellKeyed(t) && id !in t
    ensures DeleteUser(t, id) == Step(Ok(true), t)
  {
    assert t - {id} == t;
  }
}
